=== FILE: README.md ===
# STI translation core in Dafny

This project models the translation engine `STI_Core` of `sti_lib.py`: a
small session state machine that turns a Latin source text into a literal
token-by-token rendering through a glossary. The session holds the
normalized source text, the glossary (a map from source token to entry), the
rendered token sequence `mtx_t` and a phase string. The steps are:

- **Normalize** (`p10_a_limpieza`). It cuts bracketed annotations `[…]` with a
  non-greedy match that does not cross a newline. It deletes `;`, `,` and `.`,
  collapses every whitespace run to one space and strips the ends. An empty
  input returns `""` and leaves the session alone.
- **Register** (`p8_a_analisis_lexico`). It splits the source text on single
  spaces. Each new non-empty token gets a pending entry whose category is
  `PARTICULA` for fewer than four characters and `NUCLEO` otherwise. A known
  token only gains the position in its occurrences. Positions count the empty
  pieces too.
- **Translate** (`p3_traduccion`). The integrity gate refuses to run while any
  `NUCLEO` entry has an empty translation. The refusal is a
  `ProtocolError(missing)` result, the model of `ProtocoloError`, and the
  session is left untouched. Otherwise every non-empty piece is rendered in
  order, as one of these:
  - `{tok}` when the glossary does not know it;
  - the translation verbatim for a `NUCLEO` entry;
  - for any other category, the translation, or `[tok]` when that is empty.
- **Render** (`p10_b_renderizado`). It joins the rendered tokens with single
  spaces.
- **Complete** (`p8_ia_autocompletar`). Whether the client library imports is
  a parameter, checked first; then a glossary with no untranslated entry ends
  the step. The reply of the suggestion service is a parameter too, and each
  `token=translation` line naming a known key overwrites that entry.

Each step is a pure function from the session (and its input) to the next
session and the step's result. Modules:

- `Text`: whitespace, split and join, strip, and the split/join round trips.
- `Normalizer`: the cleaning pipeline.
- `Lexicon`: glossary entries, the registration loop and its reference
  definition.
- `Core`: the session record and the four steps.
- `Autocomplete`: the reply merge.
- `Scenarios`: the `lupus est` walk-through.

Three behaviours of the code that are easy to misread:

- The AI merge is not limited to the entries that are still empty. Only the
  request lists the pending keys (sti_lib.py:59, 65); the merge overwrites any
  key a reply line names (sti_lib.py:74-76), as
  `Autocomplete.MergeOverwritesTranslated` shows.
- A `NUCLEO` entry is rendered as its translation verbatim, even an empty one
  (sti_lib.py:100-101); it never falls back to `{tok}` or `[tok]`. The gate
  (sti_lib.py:85-87) rules the empty case out, so no rendered token is ever
  empty (`Core.TranslateOutputNonEmpty`).
- An empty input to the normalizer returns before the assignment to the
  source text (sti_lib.py:16, 23), so the previous source text stays.

## Model

| member | source | states |
|---|---|---|
| Core.Init | sti_lib.py:8-12 | A fresh session has an empty glossary, no source text, no output and phase `ESPERA`. |
| Core.InitialSession | sti_lib.py:8-12 | A fresh session has nothing to register. Translating it succeeds with an empty output, which renders as the empty string. |
| Core.Normalize | sti_lib.py:14-24 | The returned text is the cleaning of the input, so its tokens are the words of the input after bracket and punctuation removal (see Normalizer.Clean). An empty input returns `""` and changes nothing. The cleaning of any other input becomes the source text, and nothing else in the session changes. The result never starts or ends with whitespace, has only single plain spaces and holds no `;`, `,` or `.`. |
| Normalizer.Clean | sti_lib.py:16-22 | The cleaning pipeline maps `""` to `""`, and every output has the normalized shape: no whitespace at either end, whitespace only as single `' '`, no deleted punctuation. Its space-separated tokens are exactly the whitespace-separated words of the text after bracket and punctuation removal, in order: no word is lost, merged or split. |
| Normalizer.FindClose | sti_lib.py:18 | It finds where a span opened just before `t` closes: the first `]`, with no newline or `]` before it. When it finds nothing, every `]` in `t` has a newline before it. |
| Normalizer.StripBrackets | sti_lib.py:18 | Bracket removal never lengthens the text. What it keeps and cuts is stated case by case in StripBracketsPrefix, StripBracketsSpan and StripBracketsUnclosed. |
| Normalizer.StripBracketsLeavesNoSpan | sti_lib.py:18 | After bracket removal, no `[` is closed by a `]` before the next newline. |
| Normalizer.StripBracketsFixesNoSpan | sti_lib.py:18 | A text with no closable span passes bracket removal unchanged. |
| Normalizer.StripBracketsPrefix | sti_lib.py:18 | Text before the first `[` is kept as it is, in front of whatever the rest becomes. |
| Normalizer.StripBracketsSpan | sti_lib.py:18 | A span `[x]` whose inside holds no `]` and no newline is cut out, brackets included, and the text after it is processed on its own. |
| Normalizer.StripBracketsUnclosed | sti_lib.py:18 | A `[` that no `]` closes before the next newline is kept, and the text after it is processed on its own. |
| Normalizer.StripBracketsExamples | sti_lib.py:18 | `a[1]b` becomes `ab`. `[[x]y]` becomes `y]`, because the match ends at the first `]`. `[a\nb]` is kept, because a span does not cross a newline. |
| Normalizer.DropPunctuation | sti_lib.py:20 | The result holds no `;`, `,` or `.`. Every other character keeps its count. A text without punctuation is unchanged. |
| Normalizer.DropPunctuationAppend | sti_lib.py:20 | Punctuation removal works piecewise: the result for `a + b` is the result for `a` followed by the result for `b`, so the kept characters stay in order. |
| Normalizer.DropPunctuationChar | sti_lib.py:20 | A single character is deleted exactly when it is `;`, `,` or `.`. |
| Normalizer.CollapseSpaces | sti_lib.py:22 | Collapsing never lengthens the text. Its shape, its ends and its words are stated in CollapseSpacesShape, CollapseSpacesEnd and CollapseKeepsWords. |
| Normalizer.CollapseSpacesShape | sti_lib.py:22 | After collapsing, every whitespace character is a single plain space with no two in a row. The result starts with whitespace exactly when the input does, and no punctuation is introduced. |
| Normalizer.CollapseSpacesEnd | sti_lib.py:22 | A non-empty text collapses to a non-empty one that ends with whitespace exactly when the input does. |
| Normalizer.CollapseKeepsVisible | sti_lib.py:22 | Collapsing whitespace keeps every non-whitespace character, in order. |
| Normalizer.CollapseKeepsWords | sti_lib.py:22 | Collapsing whitespace runs keeps the whitespace-separated words of the text: none is lost, merged or split. |
| Normalizer.CollapseFixesSingleSpaces | sti_lib.py:22 | A text whose whitespace is already single plain spaces is unchanged by collapsing. |
| Normalizer.CleanKeepsVisible | sti_lib.py:18-22 | Cleaning keeps, in order, every non-whitespace character that survives bracket and punctuation removal. |
| Normalizer.CleanFixes | sti_lib.py:16-22 | A normalized text with no closable span is its own cleaning. |
| Normalizer.CleanIdempotent | sti_lib.py:16-22 | Cleaning twice equals cleaning once whenever the first output has no closable span. |
| Normalizer.CleanNotIdempotentAcrossNewline | sti_lib.py:18-22 | Without that condition idempotence fails. `[a\nb]` cleans to `[a b]`: the newline protected the span, but cleaning turned it into a space. `[a b]` then cleans to `""`. |
| Text.Strip | sti_lib.py:22 | `strip()` returns a contiguous slice of the text. Everything cut from either end is whitespace, and the slice neither starts nor ends with whitespace. |
| Text.StripKeepsVisible | sti_lib.py:22 | Stripping never loses a non-whitespace character. |
| Text.StripKeepsWords | sti_lib.py:22 | Stripping keeps the whitespace-separated words of the text. |
| Text.IsSpace | sti_lib.py:22 | The whitespace class of `\s` and of `str.strip()` is the fixed set of code points that `str.isspace` accepts: U+0009 to U+000D, U+001C to U+001F, U+0020, U+0085, U+00A0, U+1680, U+2000 to U+200A, U+2028, U+2029, U+202F, U+205F and U+3000. |
| Text.SplitPlainSpaces | sti_lib.py:22-31 | When the plain space is the only whitespace in a text, splitting it on `' '` is cutting it at every whitespace character. |
| Text.SplitOn | sti_lib.py:31 | Splitting on a character gives at least one piece, and no piece contains the separator. |
| Core.Pieces | sti_lib.py:31 | The source text is split on single spaces, empty pieces included: there is at least one piece, no piece holds a space, and joining the pieces with spaces gives the text back. |
| Text.JoinSplit | sti_lib.py:31 | Joining the pieces of a split with the same separator gives the text back. |
| Text.SplitSingleSeparatedNonEmpty | sti_lib.py:31 | A non-empty text that neither starts nor ends with the separator and never doubles it splits into non-empty pieces only. |
| Text.NonEmpty | sti_lib.py:33-34 | Skipping the empty pieces leaves no empty piece and never adds one. It is the identity when no piece was empty. |
| Text.NonEmptyAppend | sti_lib.py:33-34 | Skipping empty pieces works list by list: the kept pieces of `a + b` are those of `a` followed by those of `b`, each in order. |
| Text.NonEmptySingle | sti_lib.py:33-34 | A single piece is dropped exactly when it is empty. With NonEmptyAppend this fixes the result for every list. |
| Lexicon.Occurrences | sti_lib.py:33-47 | The recorded positions of a token are valid indices holding that token, in strictly increasing order. The empty token never appears. |
| Lexicon.OccurrencesComplete | sti_lib.py:33-47 | Every position holding a non-empty token is among its recorded occurrences. |
| Lexicon.Classify | sti_lib.py:37 | The category is `PARTICULA` or `NUCLEO`, and `NUCLEO` exactly when the token has at least four characters. |
| Lexicon.NewEntry | sti_lib.py:38-44 | A new record holds the token as its source, an empty translation, status `PENDIENTE`, the given positions, and category `NUCLEO` exactly when the token has at least four characters. |
| Lexicon.RegisterToken | sti_lib.py:34-47 | One pass creates an entry exactly when the token is non-empty and new; then the new key holds a pending entry with the one position. A known token only gains the position at the end of its occurrences. An empty token changes nothing, no other entry changes, and the keys grow by at most the token. |
| Lexicon.RegisterLoop | sti_lib.py:31-47 | The loop over the first `n` pieces produces the reference registration. Its counter equals the number of distinct non-empty tokens that were not keys before. |
| Lexicon.RegisterStepGlossary | sti_lib.py:33-47 | One loop pass turns the reference glossary for `n - 1` pieces into the one for `n` pieces. |
| Lexicon.RegisterStepFlag | sti_lib.py:36-45 | A pass creates an entry exactly when its piece is non-empty and new both to the glossary and to the earlier pieces. |
| Lexicon.RegisterKeepsExisting | sti_lib.py:46-47 | Registration never touches a user's data. A key already present keeps its source token, translation, category and status, and its occurrences only gain the token's positions at the end. |
| Lexicon.RegisterCreatesNew | sti_lib.py:36-45 | A token new to the glossary gets an untranslated `PENDIENTE` entry. Its category is `PARTICULA` exactly when it is shorter than four characters and `NUCLEO` otherwise, and its occurrences are exactly the positions holding it (so they include its position, the first occurrence first). |
| Lexicon.RegisterKeys | sti_lib.py:33-47 | The keys after registration are the old keys plus the non-empty tokens, and nothing else. |
| Lexicon.RegisterTwiceAddsNothing | sti_lib.py:33-47 | Registering the same tokens again adds no key and leaves every translation, category and status as they were. |
| Core.Register | sti_lib.py:26-50 | Without source text nothing changes. Otherwise the glossary becomes the reference registration of the space-split pieces and the phase becomes `P8_A_COMPLETO`. The reported count is the number of keys added. |
| Core.RegisteredTokensAreKnown | sti_lib.py:33-45 | After registration every non-empty token of the source text is a key, so translation never falls back to `{tok}` for it. |
| Core.NewLongTokenBlocksTranslation | sti_lib.py:85-87 | A token of four or more characters registered for the first time blocks the next translation and is among the reported missing keys, and the session stays unchanged. |
| Core.Translate | sti_lib.py:82-108 | The gate fails if and only if some entry is a `NUCLEO` with an empty translation. A failure reports exactly those keys and leaves the session unchanged. A success keeps glossary and source text, sets `TRADUCIDO`, and produces one output per non-empty piece, in order, each the rendering of that piece. |
| Core.Blocks | sti_lib.py:85 | An entry blocks translation exactly when its category is `NUCLEO` and its translation is empty. |
| Core.TranslateTokenCases | sti_lib.py:92-105 | Each output token is `{tok}` for an unknown token, the translation verbatim for a `NUCLEO` entry, and for any other category the translation, or `[tok]` when it is empty. |
| Core.TranslateOutputNonEmpty | sti_lib.py:85-105 | After a successful translation no output token is empty. |
| Core.TranslateIsomorphic | sti_lib.py:89-105 | On a non-empty normalized source, the output has exactly one element per space-separated piece, and element `j` renders piece `j`. |
| Core.RenderToken | sti_lib.py:94-105 | A token renders as `""` exactly when it is a `NUCLEO` entry with no translation. An unknown token renders as `{tok}`, a known token with a translation as that translation whatever its category, and any other entry with no translation as `[tok]`. |
| Core.RenderAll | sti_lib.py:89-105 | The renderer's loop gives one output per non-empty piece, and output `j` is the rendering of the `j`-th non-empty piece. |
| Core.Render | sti_lib.py:110-111 | Rendering an empty output gives `""`. Otherwise the length is the total token length plus one separator between neighbours. When no token holds a space, splitting the rendering on spaces gives the output back. The rendering is the join of the output with single spaces (Text.JoinWith), which Text.JoinSingle and Text.JoinAppend pin down whatever the tokens hold. |
| Text.JoinWith | sti_lib.py:111 | Joining an empty list gives `""`. Otherwise the length is the pieces' total length plus one separator between neighbours. |
| Text.JoinSingle | sti_lib.py:111 | A single piece joins to itself. |
| Text.JoinAppend | sti_lib.py:111 | Joining `xs + ys`, both non-empty, gives the join of `xs`, one separator, then the join of `ys`. With JoinSingle this fixes the join of every list, spaces inside the pieces included. |
| Text.SplitJoin | sti_lib.py:110-111 | Joining a non-empty list of separator-free pieces and splitting the result gives the list back. |
| Autocomplete.IndexOf | sti_lib.py:72 | It finds the first occurrence of a character: the character is there and not before it. It finds nothing exactly when the character is absent. |
| Autocomplete.ParseLine | sti_lib.py:71 | A reply line is skipped exactly when it holds no `=`. |
| Autocomplete.ParseLineFirstEquals | sti_lib.py:72-75 | A line whose first `=` is at `i` parses into the stripped text before position `i` and the stripped text after it; any later `=` stays in the translation. |
| Autocomplete.MergeLines | sti_lib.py:70-77 | The merge keeps the key set. Each entry becomes what the last reply line naming it says, with status `SUGERIDO_IA`, or stays as it was. The count is the number of lines naming a known key. |
| Autocomplete.Complete | sti_lib.py:54-80 | Without the client library the step ends first, whatever the glossary. Otherwise, with no untranslated entry the step ends without a request, and a failed request changes nothing. After a reply, every key named by some line takes the last such line's suggestion and `SUGERIDO_IA`, every other entry is kept, and the count is the number of lines naming a known key. The keys never change, and a changed entry keeps its source token, category and occurrences. |
| Autocomplete.MergeOverwritesTranslated | sti_lib.py:74-76 | A suggestion line for an entry that already has a translation still overwrites it. |
| Scenarios.NormalizeExample | sti_lib.py:14-24 | Normalizing `lupus est` keeps it as it is and stores it as the source text. |
| Scenarios.PiecesExample | sti_lib.py:31 | `lupus est` splits into `lupus` and `est`. |
| Scenarios.RegisterExample | sti_lib.py:26-50 | Registering `lupus est` creates a pending `NUCLEO` entry for `lupus` at 0 and a pending `PARTICULA` entry for `est` at 1, and reports two new terms. |
| Scenarios.BlockedExample | sti_lib.py:85-87 | Translating before `lupus` has a translation is refused, naming only `lupus`. |
| Scenarios.ResolvedExample | sti_lib.py:89-111 | Once `lupus` is bound to `lobo`, translation gives `["lobo", "[est]"]`, rendered as `lobo [est]`. |

## Left out

- `app.py` (the Streamlit UI, the data editor, file upload and the command box) is not part of this model. Its writes to the glossary are arbitrary external updates. So `Core.Translate` accepts any glossary: any category string, keys absent from the text, and empty occurrence lists.
- The request side of `p8_ia_autocompletar` is not modelled: the prompt text, the API key and the network call (sti_lib.py:62-68). Whether the library imports (sti_lib.py:54-57) is a boolean parameter. The service reply is a parameter, and `None` stands for an exception inside the `try` of sti_lib.py:67-80, in the request or in reading its text. The error strings are not reproduced.
- Autocomplete.Complete: a failure in `genai.configure` or `GenerativeModel` (sti_lib.py:62-63) is outside the `try` and raises out of the step; the model has no such outcome.
- The wording of the returned status messages and of the `ProtocoloError` text is not modelled (sti_lib.py:29, 50, 87, 108). The steps return outcome values instead: `NoSourceText`, `Added(count)`, `ProtocolError(missing)`, `Translated`.
- Core.Translate: the missing keys are a set rather than a list in glossary insertion order, because a Dafny map has no insertion order. The error text's count and first three keys are not modelled.
- Regular expressions are modelled by hand-written recursive functions for the three patterns used, not by a general regex engine. `\s` and `str.strip()` are modelled by a fixed set of code points: the characters Python's `str.isspace` accepts.
- Only string inputs are modelled. Python's `if not text` also treats `None` as empty. Glossary values are records of strings and integer positions, not arbitrary dictionaries.

=== FILE: autocomplete.dfy ===
/**
  The merge half of the AI-assisted completion (`STI_Core.p8_ia_autocompletar`).
  Whether the client library can be imported is a parameter, checked first.
  The request to the suggestion service is not modelled; its reply is a
  parameter too: `None` when the request or the reading of its text failed,
  or the reply text, one `token=translation` suggestion per line.
 */
module Autocomplete {
  import opened Text
  import opened Lexicon

  datatype AutocompleteOutcome =
    | MissingLibrary
    | AlreadyComplete
    | ServiceFailed
    | Completed(count: nat)

  /** Index of the first `c` in `s`, if any. */
  function IndexOf(s: string, c: char): (r: Option<nat>)
    ensures r.Some? ==> r.value < |s| && s[r.value] == c && c !in s[..r.value]
    ensures r.None? <==> c !in s
  {
    if |s| == 0 then None
    else if s[0] == c then Some(0)
    else
      match IndexOf(s[1..], c)
      case None => None
      case Some(i) =>
        assert s[..i + 1] == [s[0]] + s[1..][..i];
        Some(i + 1)
  }

  /** A reply line holding `=` is cut at its first `=`; both halves are
      stripped of surrounding whitespace. A line without `=` is skipped. */
  function ParseLine(line: string): (r: Option<(string, string)>)
    ensures r.None? <==> '=' !in line
  {
    match IndexOf(line, '=')
    case None => None
    case Some(i) => Some((Strip(line[..i]), Strip(line[i + 1..])))
  }

  /** The suggestion for `k` that the last line naming it makes, if any line
      does: later lines overwrite earlier ones. */
  function LastSuggestion(lines: seq<string>, k: string): Option<string>
    decreases |lines|
  {
    if |lines| == 0 then None
    else
      var p := ParseLine(lines[|lines| - 1]);
      if p.Some? && p.value.0 == k then Some(p.value.1)
      else LastSuggestion(lines[..|lines| - 1], k)
  }

  /** Number of lines whose token is a key of `g`. */
  function CountKnown(g: Glossary, lines: seq<string>): nat {
    if |lines| == 0 then 0
    else
      var p := ParseLine(lines[0]);
      (if p.Some? && p.value.0 in g then 1 else 0) + CountKnown(g, lines[1..])
  }

  /** An entry after the merge, given the suggestion that last named it. */
  function Suggested(e: Entry, suggestion: Option<string>): Entry {
    match suggestion
    case None => e
    case Some(t) => e.(tokenTgt := t, status := SuggestedStatus)
  }

  /** The merge loop: each line naming a key of the store overwrites that
      entry's translation (whether or not it was empty) and marks it as an
      AI suggestion; lines naming unknown tokens or without `=` are ignored. */
  function MergeLines(g: Glossary, lines: seq<string>): (r: (Glossary, nat))
    ensures r.0.Keys == g.Keys
    ensures r.1 == CountKnown(g, lines)
    ensures forall k :: k in g ==> r.0[k] == Suggested(g[k], LastSuggestion(lines, k))
    decreases |lines|
  {
    if |lines| == 0 then (g, 0)
    else
      var n := |lines| - 1;
      var prev := MergeLines(g, lines[..n]);
      var p := ParseLine(lines[n]);
      MergeLinesCount(g, lines);
      assert lines[..n] == lines[..|lines| - 1];
      if p.Some? && p.value.0 in g then
        var k := p.value.0;
        var next := prev.0[k := Suggested(prev.0[k], Some(p.value.1))];
        assert forall k' :: k' in g ==> next[k'] == Suggested(g[k'], LastSuggestion(lines, k'));
        (next, prev.1 + 1)
      else
        assert forall k' :: k' in g ==> LastSuggestion(lines, k') == LastSuggestion(lines[..n], k');
        (prev.0, prev.1)
  }

  /** Counting the known lines from the back gives the same number. */
  lemma {:induction false} MergeLinesCount(g: Glossary, lines: seq<string>)
    requires |lines| > 0
    ensures var n := |lines| - 1; var p := ParseLine(lines[n]);
      CountKnown(g, lines) == CountKnown(g, lines[..n]) + (if p.Some? && p.value.0 in g then 1 else 0)
    decreases |lines|
  {
    var n := |lines| - 1;
    if n > 0 {
      MergeLinesCount(g, lines[1..]);
      assert lines[1..][..n - 1] == lines[..n][1..];
      assert lines[1..][n - 1] == lines[n];
    }
  }

  /** The whole step: without the client library nothing happens; with no
      entry left untranslated the service is not asked; a failed request
      changes nothing; otherwise every key that some reply line names takes
      the suggestion of the last such line and the AI-suggested status, every
      other entry is kept, and the count is the number of lines naming a key.
      The keys, source tokens, categories and occurrences of the store never
      change. */
  function Complete(g: Glossary, libraryPresent: bool, reply: Option<string>): (r: (Glossary, AutocompleteOutcome))
    ensures !libraryPresent ==> r == (g, MissingLibrary)
    ensures libraryPresent && (forall k :: k in g ==> g[k].tokenTgt != "") ==> r == (g, AlreadyComplete)
    ensures libraryPresent && (exists k :: k in g && g[k].tokenTgt == "") && reply.None? ==>
      r == (g, ServiceFailed)
    ensures reply.None? ==> r.0 == g
    ensures r.0.Keys == g.Keys
    ensures forall k :: k in g && r.0[k] != g[k] ==> reply.Some?
    ensures reply.Some? ==>
      forall k :: k in g ==> SuggestedKeeps(g[k], LastSuggestion(SplitOn(reply.value, '\n'), k), r.0[k])
    ensures libraryPresent && (exists k :: k in g && g[k].tokenTgt == "") && reply.Some? ==>
      var lines := SplitOn(reply.value, '\n');
      && r.1 == Completed(CountKnown(g, lines))
      && forall k :: k in g ==>
           (LastSuggestion(lines, k).None? ==> r.0[k] == g[k])
           && (LastSuggestion(lines, k).Some? ==>
                 r.0[k] == g[k].(tokenTgt := LastSuggestion(lines, k).value, status := SuggestedStatus))
  {
    var pending := set k | k in g && g[k].tokenTgt == "";
    if !libraryPresent then (g, MissingLibrary)
    else if pending == {} then
      assert forall k :: k in g && g[k].tokenTgt == "" ==> k in pending;
      (g, AlreadyComplete)
    else if reply.None? then
      assert exists k :: k in g && g[k].tokenTgt == "";
      (g, ServiceFailed)
    else
      var lines := SplitOn(reply.value, '\n');
      var merged := MergeLines(g, lines);
      assert exists k :: k in g && g[k].tokenTgt == "";
      assert forall k :: k in g ==> SuggestedKeeps(g[k], LastSuggestion(lines, k), merged.0[k]);
      (merged.0, Completed(merged.1))
  }

  /** What a suggestion may and may not change in an entry. */
  predicate SuggestedKeeps(e: Entry, suggestion: Option<string>, e': Entry) {
    && e'.tokenSrc == e.tokenSrc && e'.category == e.category && e'.occurrences == e.occurrences
    && (e' != e ==> e'.status == SuggestedStatus && suggestion == Some(e'.tokenTgt))
  }

  /** A suggestion line for a key already translated still overwrites it:
      the merge does not restrict itself to the entries that were empty. */
  lemma MergeOverwritesTranslated(e: Entry)
    requires e.tokenTgt != ""
    ensures var g := map["lupus" := e];
      MergeLines(g, ["lupus=lobo"]).0["lupus"].tokenTgt == "lobo"
  {
    ParseExampleLine();
    var lines := ["lupus=lobo"];
    assert lines[..0] == [];
    assert LastSuggestion(lines, "lupus") == Some("lobo");
  }

  lemma ParseExampleLine()
    ensures ParseLine("lupus=lobo") == Some(("lupus", "lobo"))
  {
    ExampleHalves();
    ExampleWords();
    assert "lupus=lobo"[5] == '=';
    ParseLineFirstEquals("lupus=lobo", 5);
  }

  /** A line whose first `=` is at `i` parses into the stripped text before
      it and the stripped text after it (later `=` stay in the translation). */
  lemma ParseLineFirstEquals(line: string, i: nat)
    requires i < |line| && line[i] == '=' && '=' !in line[..i]
    ensures ParseLine(line) == Some((Strip(line[..i]), Strip(line[i + 1..])))
  {
  }

  lemma ExampleWords()
    ensures Strip("lupus") == "lupus" && Strip("lobo") == "lobo"
  {
    StripWord("lupus");
    StripWord("lobo");
  }

  lemma ExampleHalves()
    ensures "lupus=lobo"[..5] == "lupus" && "lupus=lobo"[6..] == "lobo"
  {
  }

  /** A word with whitespace at neither end is its own strip. */
  lemma StripWord(w: string)
    requires |w| > 0 && !IsSpace(w[0]) && !IsSpace(w[|w| - 1])
    ensures Strip(w) == w
  {
    assert TrimStart(w) == w;
    assert TrimEnd(w) == w;
  }
}

=== FILE: core.dfy ===
/**
  The session state machine of the translation core (`STI_Core`): the
  session record and its four steps, each a function from the session (and
  its inputs) to the next session and the step's result.

    Normalize  — `p10_a_limpieza`
    Register   — `p8_a_analisis_lexico`
    Translate  — `p3_traduccion`, with its integrity gate
    Render     — `p10_b_renderizado`
 */
module Core {
  import opened Text
  import opened Normalizer
  import opened Lexicon

  /** Session phases as the core writes them into `status`. */
  const Waiting: string := "ESPERA"
  const LexiconReady: string := "P8_A_COMPLETO"
  const TranslatedPhase: string := "TRADUCIDO"

  /** The in-memory session: the normalized source, the glossary, the
      rendered token sequence of the last successful translation, and the
      phase. */
  datatype Session = Session(
    glossary: Glossary,
    sourceText: string,
    output: seq<string>,
    status: string)

  /** A fresh session (also what the reset command installs): no glossary
      entry, no source text, no output, waiting. */
  function Init(): (r: Session)
    ensures r.glossary == map[] && r.sourceText == "" && r.output == []
    ensures r.status == Waiting
  {
    Session(map[], "", [], Waiting)
  }

  /** The source text cut at every single space, empty pieces included:
      no piece holds a space, and joining the pieces with spaces gives the
      text back. */
  function Pieces(text: string): (r: seq<string>)
    ensures |r| >= 1
    ensures forall i :: 0 <= i < |r| ==> ' ' !in r[i]
    ensures JoinWith(r, ' ') == text
  {
    JoinSplit(text, ' ');
    SplitOn(text, ' ')
  }

  // ---------------------------------------------------------------------
  // Normalizer step

  /** Cleans `text`. An empty input returns the empty string and leaves the
      session alone; the cleaning of any other input becomes the new source
      text, and nothing else changes. */
  function Normalize(s: Session, text: string): (r: (Session, string))
    ensures r.1 == Clean(text)
    ensures text == "" ==> r == (s, "")
    ensures text != "" ==> r.0 == s.(sourceText := r.1)
    ensures Normalized(r.1)
  {
    if text == "" then (s, "")
    else
      var clean := Clean(text);
      (s.(sourceText := clean), clean)
  }

  // ---------------------------------------------------------------------
  // Registrar step

  datatype RegisterOutcome = NoSourceText | Added(count: nat)

  /** Registers the tokens of the source text. Without source text nothing
      changes; otherwise the glossary becomes the reference registration of
      the pieces, the phase becomes `LexiconReady`, and the count is the
      number of keys that were not in the glossary before. */
  function Register(s: Session): (r: (Session, RegisterOutcome))
    ensures s.sourceText == "" ==> r == (s, NoSourceText)
    ensures s.sourceText != "" ==>
      && r.0 == s.(glossary := Registered(s.glossary, Pieces(s.sourceText)), status := LexiconReady)
      && r.1 == Added(|r.0.glossary.Keys - s.glossary.Keys|)
  {
    if s.sourceText == "" then (s, NoSourceText)
    else
      var ts := Pieces(s.sourceText);
      var loop := RegisterLoop(s.glossary, ts, |ts|);
      assert ts[..|ts|] == ts;
      RegisterKeys(s.glossary, ts);
      assert loop.0.Keys - s.glossary.Keys == TokenSet(ts) - s.glossary.Keys;
      (s.(glossary := loop.0, status := LexiconReady), Added(loop.1))
  }

  // ---------------------------------------------------------------------
  // Integrity gate and renderer

  datatype TranslateOutcome = Translated | ProtocolError(missing: set<string>)

  /** An entry that blocks translation: a core token with no translation. */
  predicate Blocks(e: Entry) {
    e.category == CoreCategory && e.tokenTgt == ""
  }

  /** The rendering of one token: `{tok}` if the glossary does not know it,
      the translation verbatim for a core entry, and for any other category
      the translation or, when that is empty, `[tok]`. */
  function RenderToken(g: Glossary, token: string): (r: string)
    ensures r == "" <==> token in g && Blocks(g[token])
    ensures token !in g ==> r == "{" + token + "}"
    ensures token in g && g[token].tokenTgt != "" ==> r == g[token].tokenTgt
    ensures token in g && g[token].tokenTgt == "" && g[token].category != CoreCategory ==>
      r == "[" + token + "]"
  {
    if token !in g then "{" + token + "}"
    else if g[token].category == CoreCategory then g[token].tokenTgt
    else if g[token].tokenTgt != "" then g[token].tokenTgt
    else "[" + token + "]"
  }

  /** The renderer's loop: one output per non-empty piece, in order. */
  function RenderAll(g: Glossary, ts: seq<string>): (r: seq<string>)
    ensures |r| == |NonEmpty(ts)|
    ensures forall j :: 0 <= j < |r| ==> r[j] == RenderToken(g, NonEmpty(ts)[j])
  {
    if |ts| == 0 then []
    else if ts[0] == "" then
      assert NonEmpty(ts) == NonEmpty(ts[1..]);
      RenderAll(g, ts[1..])
    else
      var rest := RenderAll(g, ts[1..]);
      assert NonEmpty(ts) == [ts[0]] + NonEmpty(ts[1..]);
      [RenderToken(g, ts[0])] + rest
  }

  /** Translates the source text. The gate fails exactly when some entry is a
      core with an empty translation, reports exactly those keys, and leaves
      the session untouched. Otherwise the output holds one rendering per
      non-empty piece of the source text, in order, and the phase becomes
      `TranslatedPhase`; glossary and source text are kept. */
  function Translate(s: Session): (r: (Session, TranslateOutcome))
    ensures r.1.ProtocolError? <==> exists k :: k in s.glossary && Blocks(s.glossary[k])
    ensures r.1.ProtocolError? ==> r.0 == s
    ensures r.1.ProtocolError? ==>
      forall k :: k in r.1.missing <==> k in s.glossary && Blocks(s.glossary[k])
    ensures r.1.Translated? ==>
      && r.0.glossary == s.glossary && r.0.sourceText == s.sourceText
      && r.0.status == TranslatedPhase
      && |r.0.output| == |NonEmpty(Pieces(s.sourceText))|
      && forall j :: 0 <= j < |r.0.output| ==>
           r.0.output[j] == RenderToken(s.glossary, NonEmpty(Pieces(s.sourceText))[j])
  {
    var missing := set k | k in s.glossary && Blocks(s.glossary[k]);
    if missing != {} then (s, ProtocolError(missing))
    else
      assert forall k :: k in s.glossary && Blocks(s.glossary[k]) ==> k in missing;
      var out := RenderAll(s.glossary, Pieces(s.sourceText));
      (s.(output := out, status := TranslatedPhase), Translated)
  }

  /** The rendered text: the output tokens joined by single spaces. When no
      output token holds a space, splitting the rendering on spaces gives the
      output back. */
  function Render(s: Session): (r: string)
    ensures r == JoinWith(s.output, ' ')
    ensures |s.output| == 0 ==> r == ""
    ensures |s.output| > 0 ==> |r| == TotalLength(s.output) + |s.output| - 1
    ensures |s.output| > 0 && (forall j :: 0 <= j < |s.output| ==> ' ' !in s.output[j]) ==>
      SplitOn(r, ' ') == s.output
  {
    var r := JoinWith(s.output, ' ');
    assert |s.output| > 0 && (forall j :: 0 <= j < |s.output| ==> ' ' !in s.output[j]) ==>
      SplitOn(r, ' ') == s.output by {
      if |s.output| > 0 && (forall j :: 0 <= j < |s.output| ==> ' ' !in s.output[j]) {
        SplitJoin(s.output, ' ');
      }
    }
    r
  }

  // ---------------------------------------------------------------------
  // Properties of the steps

  /** Each output token, spelled out: an unknown token is wrapped in braces, a
      core entry gives its translation verbatim (even an empty one), and any
      other category gives its translation, or the token in square brackets
      when the translation is empty. */
  lemma TranslateTokenCases(s: Session, j: nat)
    requires Translate(s).1.Translated?
    requires j < |Translate(s).0.output|
    ensures var tok, out := NonEmpty(Pieces(s.sourceText))[j], Translate(s).0.output[j];
      && tok != ""
      && (tok !in s.glossary ==> out == "{" + tok + "}")
      && (tok in s.glossary && s.glossary[tok].category == CoreCategory ==>
            out == s.glossary[tok].tokenTgt)
      && (tok in s.glossary && s.glossary[tok].category != CoreCategory ==>
            out == (if s.glossary[tok].tokenTgt != "" then s.glossary[tok].tokenTgt else "[" + tok + "]"))
  {
  }

  /** After a successful translation no output token is empty: the gate has
      ruled out core entries with an empty translation, and both fallbacks
      are bracketed. */
  lemma TranslateOutputNonEmpty(s: Session, j: nat)
    requires Translate(s).1.Translated?
    requires j < |Translate(s).0.output|
    ensures Translate(s).0.output[j] != ""
  {
    var tok := NonEmpty(Pieces(s.sourceText))[j];
    if tok in s.glossary && s.glossary[tok].category == CoreCategory {
      assert !Blocks(s.glossary[tok]);
    }
  }

  /** Positional isomorphism on a normalized source: every piece of the
      source text is a token, and output `j` renders piece `j`. */
  lemma {:induction false} TranslateIsomorphic(s: Session)
    requires s.sourceText != "" && Normalized(s.sourceText)
    requires Translate(s).1.Translated?
    ensures |Translate(s).0.output| == |Pieces(s.sourceText)|
    ensures forall j :: 0 <= j < |Pieces(s.sourceText)| ==>
      Translate(s).0.output[j] == RenderToken(s.glossary, Pieces(s.sourceText)[j])
  {
    NormalizedIsSingleSeparated(s.sourceText);
    SplitSingleSeparatedNonEmpty(s.sourceText, ' ');
  }

  lemma NormalizedIsSingleSeparated(t: string)
    requires Normalized(t)
    ensures SingleSeparated(t, ' ')
  {
    forall i, j | 0 <= i < j < |t| && j == i + 1
      ensures !(t[i] == ' ' && t[j] == ' ')
    {
      assert !(IsSpace(t[i]) && IsSpace(t[j]));
    }
  }

  /** After registering a non-empty source text, every token of it is known
      to the glossary, so translation never falls back to `{tok}`. */
  lemma RegisteredTokensAreKnown(s: Session, j: nat)
    requires s.sourceText != ""
    requires j < |NonEmpty(Pieces(s.sourceText))|
    ensures NonEmpty(Pieces(s.sourceText))[j] in Register(s).0.glossary
  {
    var ts := Pieces(s.sourceText);
    NonEmptyMember(ts, j);
    var i :| 0 <= i < |ts| && ts[i] == NonEmpty(ts)[j];
    assert ts[i] in TokenSet(ts);
  }

  lemma {:induction false} NonEmptyMember(xs: seq<string>, j: nat)
    requires j < |NonEmpty(xs)|
    ensures exists i :: 0 <= i < |xs| && xs[i] == NonEmpty(xs)[j]
    decreases |xs|
  {
    if xs[0] == "" {
      NonEmptyMember(xs[1..], j);
      var i :| 0 <= i < |xs[1..]| && xs[1..][i] == NonEmpty(xs[1..])[j];
      assert xs[i + 1] == NonEmpty(xs)[j];
    } else if j > 0 {
      NonEmptyMember(xs[1..], j - 1);
      var i :| 0 <= i < |xs[1..]| && xs[1..][i] == NonEmpty(xs[1..])[j - 1];
      assert xs[i + 1] == NonEmpty(xs)[j];
    } else {
      assert xs[0] == NonEmpty(xs)[0];
    }
  }

  /** A token of four or more characters that registration sees for the first
      time blocks the next translation, and is reported as missing, until
      someone gives it a translation. */
  lemma NewLongTokenBlocksTranslation(s: Session, i: nat)
    requires s.sourceText != ""
    requires i < |Pieces(s.sourceText)|
    requires Pieces(s.sourceText)[i] !in s.glossary
    requires |Pieces(s.sourceText)[i]| >= CoreMinLength
    ensures var after := Register(s).0;
      && Translate(after).1.ProtocolError?
      && Pieces(s.sourceText)[i] in Translate(after).1.missing
      && Translate(after).0 == after
  {
    var ts := Pieces(s.sourceText);
    RegisterCreatesNew(s.glossary, ts, i);
    var after := Register(s).0;
    assert Blocks(after.glossary[ts[i]]);
  }

  /** A fresh session has nothing to register, and translating it succeeds
      with an empty output that renders as the empty string. */
  lemma InitialSession()
    ensures Register(Init()) == (Init(), NoSourceText)
    ensures Translate(Init()).1.Translated?
    ensures Translate(Init()).0.output == []
    ensures Render(Translate(Init()).0) == ""
  {
    assert Pieces("") == [""];
  }
}

=== FILE: lexicon.dfy ===
/**
  The glossary store and the lexical registrar of the translation core
  (`STI_Core.p8_a_analisis_lexico`): one entry per distinct source token,
  created on first sight with a length-based category, and only ever extended
  with further occurrence positions afterwards.
 */
module Lexicon {
  import opened Text

  /** Category and status values as the store writes them. Edits from outside
      the core may leave any string in these fields. */
  const CoreCategory: string := "NUCLEO"
  const ParticleCategory: string := "PARTICULA"
  const PendingStatus: string := "PENDIENTE"
  const SuggestedStatus: string := "SUGERIDO_IA"

  /** Tokens shorter than this are classified as particles. */
  const CoreMinLength: nat := 4

  /** One glossary record, keyed in the store by its source token. */
  datatype Entry = Entry(
    tokenSrc: string,
    tokenTgt: string,
    category: string,
    status: string,
    occurrences: seq<int>)

  type Glossary = map<string, Entry>

  /** The length heuristic: short tokens are particles, the rest are cores. */
  function Classify(token: string): (c: string)
    ensures c == ParticleCategory || c == CoreCategory
    ensures c == CoreCategory <==> |token| >= CoreMinLength
  {
    if |token| < CoreMinLength then ParticleCategory else CoreCategory
  }

  /** The record a token gets the first time it is registered: the token
      itself, no translation, the length-based category, pending status, and
      the given positions. */
  function NewEntry(token: string, occurrences: seq<int>): (e: Entry)
    ensures e.tokenSrc == token && e.tokenTgt == "" && e.status == PendingStatus
    ensures e.category == CoreCategory <==> |token| >= CoreMinLength
    ensures e.occurrences == occurrences
  {
    Entry(token, "", Classify(token), PendingStatus, occurrences)
  }

  /** The positions at which the non-empty token `k` appears in `ts`, in
      increasing order; an empty `k` never counts as appearing. */
  function Occurrences(ts: seq<string>, k: string): (r: seq<int>)
    ensures forall j :: 0 <= j < |r| ==> 0 <= r[j] < |ts| && ts[r[j]] == k
    ensures forall j, j' :: 0 <= j < j' < |r| ==> r[j] < r[j']
    ensures k == "" ==> r == []
    decreases |ts|
  {
    if |ts| == 0 || k == "" then []
    else Occurrences(ts[..|ts| - 1], k) + (if ts[|ts| - 1] == k then [|ts| - 1] else [])
  }

  /** Every position of a non-empty token is among its occurrences. */
  lemma {:induction false} OccurrencesComplete(ts: seq<string>, k: string, i: nat)
    requires i < |ts| && ts[i] == k && k != ""
    ensures i in Occurrences(ts, k)
    decreases |ts|
  {
    if i < |ts| - 1 {
      OccurrencesComplete(ts[..|ts| - 1], k, i);
    }
  }

  /** The distinct non-empty tokens of `ts`. */
  function TokenSet(ts: seq<string>): set<string> {
    set i | 0 <= i < |ts| && ts[i] != "" :: ts[i]
  }

  /** Reference definition of registration: every key already present keeps
      its record and gains the positions at which it appears, and every new
      non-empty token gets a fresh record holding all its positions. */
  function Registered(g: Glossary, ts: seq<string>): Glossary {
    map k | k in g.Keys + TokenSet(ts) ::
      if k in g then g[k].(occurrences := g[k].occurrences + Occurrences(ts, k))
      else NewEntry(k, Occurrences(ts, k))
  }

  /** One pass of the registration loop: an empty token is skipped, a new
      token gets a fresh record, a known one gets the position appended.
      The flag says whether a record was created. */
  function RegisterToken(g: Glossary, token: string, i: int): (r: (Glossary, bool))
    ensures r.1 <==> token != "" && token !in g
    ensures token == "" ==> r.0 == g
    ensures token != "" ==> r.0.Keys == g.Keys + {token}
    ensures forall k :: k in g && k != token ==> r.0[k] == g[k]
    ensures token != "" && token !in g ==> r.0[token] == NewEntry(token, [i])
    ensures token != "" && token in g ==>
      r.0[token] == g[token].(occurrences := g[token].occurrences + [i])
  {
    if token == "" then (g, false)
    else if token !in g then (g[token := NewEntry(token, [i])], true)
    else (g[token := g[token].(occurrences := g[token].occurrences + [i])], false)
  }

  /** The registration loop over the first `n` tokens, with the number of
      records it created. */
  function RegisterLoop(g: Glossary, ts: seq<string>, n: nat): (r: (Glossary, nat))
    requires n <= |ts|
    ensures r.0 == Registered(g, ts[..n])
    ensures r.1 == |TokenSet(ts[..n]) - g.Keys|
    decreases n
  {
    if n == 0 then
      RegisterNothing(g, ts);
      (g, 0)
    else
      var prev := RegisterLoop(g, ts, n - 1);
      var step := RegisterToken(prev.0, ts[n - 1], n - 1);
      RegisterStepGlossary(g, ts, n);
      RegisterStepFlag(g, ts, n);
      RegisterStepCount(g, ts, n);
      (step.0, if step.1 then prev.1 + 1 else prev.1)
  }

  lemma RegisterNothing(g: Glossary, ts: seq<string>)
    ensures Registered(g, ts[..0]) == g
    ensures TokenSet(ts[..0]) - g.Keys == {}
  {
    assert ts[..0] == [];
    assert TokenSet([]) == {};
    forall k | k in g ensures Registered(g, [])[k] == g[k] {
      assert g[k].occurrences + [] == g[k].occurrences;
    }
  }

  /** Extending the prefix by one token adds at most its own position. */
  lemma OccurrencesSnoc(ts: seq<string>, n: nat, k: string)
    requires 0 < n <= |ts|
    ensures Occurrences(ts[..n], k)
      == Occurrences(ts[..n - 1], k) + (if ts[n - 1] == k && k != "" then [n - 1] else [])
  {
    assert ts[..n][..n - 1] == ts[..n - 1];
  }

  lemma TokenSetSnoc(ts: seq<string>, n: nat)
    requires 0 < n <= |ts|
    ensures TokenSet(ts[..n]) == TokenSet(ts[..n - 1]) + (if ts[n - 1] != "" then {ts[n - 1]} else {})
  {
    var p, q := ts[..n - 1], ts[..n];
    forall t | t in TokenSet(q) ensures t in TokenSet(p) || t == ts[n - 1] {
      var i :| 0 <= i < |q| && q[i] != "" && q[i] == t;
      if i < n - 1 {
        assert p[i] == t;
      }
    }
    forall t | t in TokenSet(p) ensures t in TokenSet(q) {
      var i :| 0 <= i < |p| && p[i] != "" && p[i] == t;
      assert q[i] == t;
    }
    if ts[n - 1] != "" {
      assert q[n - 1] == ts[n - 1];
    }
  }

  /** A token that does not appear has no occurrences. */
  lemma {:induction false} OccurrencesOfAbsent(ts: seq<string>, k: string)
    requires k !in TokenSet(ts)
    ensures Occurrences(ts, k) == []
    decreases |ts|
  {
    if |ts| > 0 && k != "" {
      var p := ts[..|ts| - 1];
      forall i | 0 <= i < |p| && p[i] != "" ensures p[i] != k {
        assert ts[i] == p[i];
        assert ts[i] in TokenSet(ts);
      }
      OccurrencesOfAbsent(p, k);
      assert ts[|ts| - 1] != "" ==> ts[|ts| - 1] in TokenSet(ts);
    }
  }

  /** One loop pass turns the reference store for `n - 1` tokens into the
      reference store for `n`. */
  lemma RegisterStepGlossary(g: Glossary, ts: seq<string>, n: nat)
    requires 0 < n <= |ts|
    ensures RegisterToken(Registered(g, ts[..n - 1]), ts[n - 1], n - 1).0 == Registered(g, ts[..n])
  {
    var before := Registered(g, ts[..n - 1]);
    var after := Registered(g, ts[..n]);
    var stepped := RegisterToken(before, ts[n - 1], n - 1).0;
    TokenSetSnoc(ts, n);
    assert stepped.Keys == after.Keys;
    forall k | k in after ensures stepped[k] == after[k] {
      RegisterStepAt(g, ts, n, k);
    }
  }

  lemma RegisterStepAt(g: Glossary, ts: seq<string>, n: nat, k: string)
    requires 0 < n <= |ts|
    requires k in Registered(g, ts[..n])
    ensures var stepped := RegisterToken(Registered(g, ts[..n - 1]), ts[n - 1], n - 1).0;
      k in stepped && stepped[k] == Registered(g, ts[..n])[k]
  {
    var p, t := ts[..n - 1], ts[n - 1];
    var before := Registered(g, p);
    var occ := Occurrences(p, k);
    TokenSetSnoc(ts, n);
    OccurrencesSnoc(ts, n, k);
    if k != t || k == "" {
      assert Occurrences(ts[..n], k) == occ + [];
      assert occ + [] == occ;
    } else if k in g {
      assert Occurrences(ts[..n], k) == occ + [n - 1];
      assert before[k].occurrences == g[k].occurrences + occ;
      assert g[k].occurrences + occ + [n - 1] == g[k].occurrences + (occ + [n - 1]);
    } else if k in before {
      assert Occurrences(ts[..n], k) == occ + [n - 1];
      assert before[k] == NewEntry(k, occ);
    } else {
      assert k !in TokenSet(p);
      OccurrencesOfAbsent(p, k);
      assert Occurrences(ts[..n], k) == [] + [n - 1];
      assert [] + [n - 1] == [n - 1];
    }
  }

  /** A record is created exactly when the token is new to both the store
      and the prefix. */
  lemma RegisterStepFlag(g: Glossary, ts: seq<string>, n: nat)
    requires 0 < n <= |ts|
    ensures RegisterToken(Registered(g, ts[..n - 1]), ts[n - 1], n - 1).1
      <==> ts[n - 1] != "" && ts[n - 1] !in g && ts[n - 1] !in TokenSet(ts[..n - 1])
  {
    RegisterKeys(g, ts[..n - 1]);
  }

  /** The count of new keys grows by one exactly for such a token. */
  lemma RegisterStepCount(g: Glossary, ts: seq<string>, n: nat)
    requires 0 < n <= |ts|
    ensures var isNew := ts[n - 1] != "" && ts[n - 1] !in g && ts[n - 1] !in TokenSet(ts[..n - 1]);
      |TokenSet(ts[..n]) - g.Keys| == |TokenSet(ts[..n - 1]) - g.Keys| + (if isNew then 1 else 0)
  {
    TokenSetSnoc(ts, n);
    CountStep(TokenSet(ts[..n - 1]), TokenSet(ts[..n]), g.Keys, ts[n - 1]);
  }

  lemma CountStep(a: set<string>, b: set<string>, keys: set<string>, t: string)
    requires b == a + (if t != "" then {t} else {})
    ensures |b - keys| == |a - keys| + (if t != "" && t !in keys && t !in a then 1 else 0)
  {
    if t != "" && t !in keys && t !in a {
      InsertOutside(a, keys, t);
    } else {
      assert b - keys == a - keys;
    }
  }

  lemma InsertOutside(a: set<string>, b: set<string>, t: string)
    requires t !in a && t !in b
    ensures (a + {t}) - b == (a - b) + {t}
    ensures |(a + {t}) - b| == |a - b| + 1
  {
    assert t !in a - b;
  }

  /** Registration never touches what a user set: every record already in the
      store keeps its source token, translation, category and status, and
      only gains occurrence positions (those of its own token, in order). */
  lemma RegisterKeepsExisting(g: Glossary, ts: seq<string>, k: string)
    requires k in g
    ensures k in Registered(g, ts)
    ensures var e, e' := g[k], Registered(g, ts)[k];
      && e'.tokenSrc == e.tokenSrc && e'.tokenTgt == e.tokenTgt
      && e'.category == e.category && e'.status == e.status
      && e'.occurrences == e.occurrences + Occurrences(ts, k)
  {
  }

  /** A token new to the store gets an untranslated, pending record whose
      category follows the length heuristic and whose occurrences are exactly
      its positions, the first one first. */
  lemma RegisterCreatesNew(g: Glossary, ts: seq<string>, i: nat)
    requires i < |ts| && ts[i] != "" && ts[i] !in g
    ensures ts[i] in Registered(g, ts)
    ensures var e := Registered(g, ts)[ts[i]];
      && e.tokenSrc == ts[i] && e.tokenTgt == "" && e.status == PendingStatus
      && (e.category == ParticleCategory <==> |ts[i]| < CoreMinLength)
      && (e.category == CoreCategory <==> |ts[i]| >= CoreMinLength)
      && e.occurrences == Occurrences(ts, ts[i])
      && i in e.occurrences
      && |e.occurrences| > 0 && ts[e.occurrences[0]] == ts[i] && e.occurrences[0] <= i
  {
    assert ts[i] in TokenSet(ts);
    OccurrencesComplete(ts, ts[i], i);
  }

  /** The keys after registration are the old keys plus the non-empty tokens,
      and nothing else. */
  lemma RegisterKeys(g: Glossary, ts: seq<string>)
    ensures Registered(g, ts).Keys == g.Keys + TokenSet(ts)
  {
  }

  /** Registering the same tokens a second time creates no record, and leaves
      every translation, category and status as the first run left them. */
  lemma {:induction false} RegisterTwiceAddsNothing(g: Glossary, ts: seq<string>)
    ensures var g1 := Registered(g, ts);
      && |TokenSet(ts) - g1.Keys| == 0
      && Registered(g1, ts).Keys == g1.Keys
      && forall k :: k in g1 ==>
           var e, e' := g1[k], Registered(g1, ts)[k];
           e'.tokenTgt == e.tokenTgt && e'.category == e.category && e'.status == e.status
  {
    var g1 := Registered(g, ts);
    assert TokenSet(ts) - g1.Keys == {};
  }
}

=== FILE: normalizer.dfy ===
/**
  The text normalizer of the translation core (the pure part of
  `STI_Core.p10_a_limpieza`): bracketed annotations are cut out, the
  punctuation `;` `,` `.` is deleted, whitespace runs become one space and the
  ends are trimmed.
 */
module Normalizer {
  import opened Text

  /** Index in `t` of the first `]` reached before any newline, if there is
      one: where the non-greedy `\[.*?\]` that opened just before `t` closes
      (`.` does not match a newline). */
  function FindClose(t: string): (r: Option<nat>)
    ensures r.Some? ==> r.value < |t| && t[r.value] == ']'
    ensures r.Some? ==> forall j :: 0 <= j < r.value ==> t[j] != ']' && t[j] != '\n'
    ensures r.None? ==> forall j :: 0 <= j < |t| && t[j] == ']' ==> '\n' in t[..j]
  {
    if |t| == 0 then None
    else if t[0] == ']' then Some(0)
    else if t[0] == '\n' then None
    else
      match FindClose(t[1..])
      case None => None
      case Some(k) => Some(k + 1)
  }

  /** `re.sub(r'\[.*?\]', '', s)`: scanning left to right, a `[` whose
      matching `]` comes before the next newline is cut out together with
      everything up to that first `]`; any other character is kept. */
  function StripBrackets(s: string): (r: string)
    ensures |r| <= |s|
    decreases |s|
  {
    if |s| == 0 then ""
    else if s[0] == '[' && FindClose(s[1..]).Some? then
      StripBrackets(s[FindClose(s[1..]).value + 2..])
    else [s[0]] + StripBrackets(s[1..])
  }

  /** No `[` in `s` is closed by a `]` before the next newline: nothing left
      for the bracket pattern to match. */
  predicate NoSpan(s: string) {
    forall i :: 0 <= i < |s| && s[i] == '[' ==> FindClose(s[i + 1..]).None?
  }

  predicate IsPunctuation(c: char) {
    c == ';' || c == ',' || c == '.'
  }

  predicate NoPunctuation(s: string) {
    forall i :: 0 <= i < |s| ==> !IsPunctuation(s[i])
  }

  /** `re.sub(r'[;,\.]', '', s)`. */
  function DropPunctuation(s: string): (r: string)
    ensures NoPunctuation(r)
    ensures forall c :: !IsPunctuation(c) ==> multiset(r)[c] == multiset(s)[c]
    ensures NoPunctuation(s) ==> r == s
  {
    if |s| == 0 then ""
    else
      assert s == [s[0]] + s[1..];
      (if IsPunctuation(s[0]) then "" else [s[0]]) + DropPunctuation(s[1..])
  }

  /** `re.sub(r'\s+', ' ', s)`: every maximal whitespace run becomes a single
      space. */
  function CollapseSpaces(s: string): (r: string)
    ensures |r| <= |s|
    decreases |s|
  {
    if |s| == 0 then ""
    else if IsSpace(s[0]) then " " + CollapseSpaces(TrimStart(s))
    else [s[0]] + CollapseSpaces(s[1..])
  }

  /** Collapsing leaves single plain spaces only, starts with whitespace
      exactly when the input does, and adds no punctuation. */
  lemma {:induction false} CollapseSpacesShape(s: string)
    ensures var r := CollapseSpaces(s);
      && (|r| > 0 <==> |s| > 0)
      && (|r| > 0 ==> (IsSpace(r[0]) <==> IsSpace(s[0])))
      && SingleSpaced(r)
      && (NoPunctuation(s) ==> NoPunctuation(r))
    decreases |s|
  {
    if |s| == 0 {
    } else if IsSpace(s[0]) {
      var t := TrimStart(s);
      TrimStartFacts(s);
      CollapseSpacesShape(t);
      SingleSpacedCons(' ', CollapseSpaces(t));
      assert NoPunctuation(s) ==> NoPunctuation(t) by {
        assert forall i :: 0 <= i < |t| ==> t[i] == s[|s| - |t| + i];
      }
    } else {
      CollapseSpacesShape(s[1..]);
      SingleSpacedCons(s[0], CollapseSpaces(s[1..]));
    }
  }

  /** Collapsing ends with whitespace exactly when the input does. */
  lemma {:induction false} CollapseSpacesEnd(s: string)
    requires |s| > 0
    ensures var r := CollapseSpaces(s);
      |r| > 0 && (IsSpace(r[|r| - 1]) <==> IsSpace(s[|s| - 1]))
    decreases |s|
  {
    if IsSpace(s[0]) {
      var t := TrimStart(s);
      TrimStartFacts(s);
      if |t| > 0 {
        CollapseSpacesEnd(t);
        assert t[|t| - 1] == s[|s| - 1];
      } else {
        assert IsSpace(s[|s| - 1]);
      }
    } else if |s| > 1 {
      CollapseSpacesEnd(s[1..]);
    }
  }

  lemma SingleSpacedCons(c: char, rest: string)
    requires SingleSpaced(rest)
    requires IsSpace(c) ==> c == ' ' && (|rest| > 0 ==> !IsSpace(rest[0]))
    ensures SingleSpaced([c] + rest)
  {
    var r := [c] + rest;
    forall i, j | 0 <= i < j < |r| && j == i + 1
      ensures !(IsSpace(r[i]) && IsSpace(r[j]))
    {
      if i > 0 {
        assert r[i] == rest[i - 1] && r[j] == rest[j - 1];
      }
    }
  }

  /** The shape the normalizer promises: no leading or trailing whitespace,
      every whitespace character a plain space, never two in a row, and none
      of the deleted punctuation. */
  ghost predicate Normalized(s: string) {
    && (|s| > 0 ==> !IsSpace(s[0]) && !IsSpace(s[|s| - 1]))
    && SingleSpaced(s)
    && NoPunctuation(s)
  }

  /** The text pipeline of `p10_a_limpieza` (empty input short-circuits to
      the empty string). */
  function Clean(text: string): (r: string)
    ensures text == "" ==> r == ""
    ensures Normalized(r)
    ensures NonEmpty(SplitOn(r, ' ')) == Words(DropPunctuation(StripBrackets(text)))
  {
    if text == "" then
      assert Fields("") == [""];
      ""
    else
      var d := DropPunctuation(StripBrackets(text));
      var c := CollapseSpaces(d);
      CollapseSpacesShape(d);
      StripKeepsShape(c);
      SplitPlainSpaces(Strip(c));
      CollapseKeepsWords(d);
      StripKeepsWords(c);
      Strip(c)
  }

  /** Collapsing keeps the first field and every word after it. */
  lemma {:induction false} CollapseFields(s: string)
    ensures Fields(CollapseSpaces(s))[0] == Fields(s)[0]
    ensures NonEmpty(Fields(CollapseSpaces(s))[1..]) == NonEmpty(Fields(s)[1..])
    decreases |s|
  {
    if |s| == 0 {
    } else if IsSpace(s[0]) {
      var t := TrimStart(s);
      var y := CollapseSpaces(t);
      assert (" " + y)[0] == ' ' && (" " + y)[1..] == y;
      assert Fields(CollapseSpaces(s))[1..] == Fields(y);
      CollapseFields(t);
      WordsOfFields(y);
      WordsOfFields(t);
      WordsTrimStart(s);
      WordsSkipSpace(s);
    } else {
      var y := CollapseSpaces(s[1..]);
      assert ([s[0]] + y)[0] == s[0] && ([s[0]] + y)[1..] == y;
      CollapseFields(s[1..]);
    }
  }

  /** Collapsing whitespace runs loses and merges no word. */
  lemma CollapseKeepsWords(s: string)
    ensures Words(CollapseSpaces(s)) == Words(s)
  {
    CollapseFields(s);
    WordsOfFields(CollapseSpaces(s));
    WordsOfFields(s);
  }

  /** Punctuation is deleted character by character: text on either side of
      a cut is treated independently and keeps its order. */
  lemma {:induction false} DropPunctuationAppend(a: string, b: string)
    ensures DropPunctuation(a + b) == DropPunctuation(a) + DropPunctuation(b)
    decreases |a|
  {
    if |a| == 0 {
      assert a + b == b;
    } else {
      assert (a + b)[0] == a[0];
      assert (a + b)[1..] == a[1..] + b;
      DropPunctuationAppend(a[1..], b);
    }
  }

  /** One character: deleted when it is `;` `,` or `.`, kept otherwise. */
  lemma DropPunctuationChar(c: char)
    ensures DropPunctuation([c]) == if IsPunctuation(c) then "" else [c]
  {
    assert [c][1..] == "";
  }

  /** Trimming a collapsed, punctuation-free text yields the normalized shape. */
  lemma StripKeepsShape(c: string)
    requires SingleSpaced(c)
    requires NoPunctuation(c)
    ensures Normalized(Strip(c))
  {
    var r := Strip(c);
    var a := |c| - |TrimStart(c)|;
    SliceKeepsShape(c, a, a + |r|);
  }

  /** Any slice of a single-spaced, punctuation-free text is one too. */
  lemma SliceKeepsShape(c: string, a: nat, b: nat)
    requires a <= b <= |c|
    requires SingleSpaced(c) && NoPunctuation(c)
    ensures SingleSpaced(c[a..b]) && NoPunctuation(c[a..b])
  {
    var r := c[a..b];
    forall i, j | 0 <= i < j < |r| && j == i + 1
      ensures !(IsSpace(r[i]) && IsSpace(r[j]))
    {
      assert r[i] == c[a + i] && r[j] == c[a + j];
    }
  }

  // ---------------------------------------------------------------------
  // Bracket removal

  /** A `[` with no `]` before the next newline stays unclosable after the
      text behind it has had its own spans removed. */
  lemma {:induction false} UnclosableStaysUnclosable(t: string)
    requires FindClose(t).None?
    ensures FindClose(StripBrackets(t)).None?
    decreases |t|
  {
    if |t| == 0 {
    } else if t[0] == '\n' {
      assert StripBrackets(t) == [t[0]] + StripBrackets(t[1..]);
    } else {
      assert t[0] != ']';
      assert FindClose(t[1..]).None?;
      if t[0] == '[' {
        assert StripBrackets(t) == [t[0]] + StripBrackets(t[1..]);
      }
      UnclosableStaysUnclosable(t[1..]);
      var r := StripBrackets(t);
      assert r == [t[0]] + StripBrackets(t[1..]);
      assert r[1..] == StripBrackets(t[1..]);
    }
  }

  /** After bracket removal, no bracketed span remains. */
  lemma {:induction false} StripBracketsLeavesNoSpan(s: string)
    ensures NoSpan(StripBrackets(s))
    decreases |s|
  {
    if |s| == 0 {
    } else if s[0] == '[' && FindClose(s[1..]).Some? {
      StripBracketsLeavesNoSpan(s[FindClose(s[1..]).value + 2..]);
    } else {
      var rest := StripBrackets(s[1..]);
      var r := [s[0]] + rest;
      StripBracketsLeavesNoSpan(s[1..]);
      if s[0] == '[' {
        UnclosableStaysUnclosable(s[1..]);
      }
      forall i | 0 <= i < |r| && r[i] == '['
        ensures FindClose(r[i + 1..]).None?
      {
        if i > 0 {
          assert r[i + 1..] == rest[i..];
          assert rest[i - 1] == '[';
        } else {
          assert r[1..] == rest;
        }
      }
    }
  }

  /** A text with no span in it passes bracket removal unchanged. */
  lemma {:induction false} StripBracketsFixesNoSpan(s: string)
    requires NoSpan(s)
    ensures StripBrackets(s) == s
    decreases |s|
  {
    if |s| > 0 {
      assert s[0] == '[' ==> FindClose(s[1..]).None?;
      forall i | 0 <= i < |s[1..]| && s[1..][i] == '['
        ensures FindClose(s[1..][i + 1..]).None?
      {
        assert s[1..][i + 1..] == s[i + 2..];
        assert s[i + 1] == '[';
      }
      StripBracketsFixesNoSpan(s[1..]);
    }
  }

  /** Text before the first `[` passes through unchanged, in front of
      whatever the rest becomes. */
  lemma {:induction false} StripBracketsPrefix(a: string, b: string)
    requires '[' !in a
    ensures StripBrackets(a + b) == a + StripBrackets(b)
    decreases |a|
  {
    if |a| == 0 {
      assert a + b == b;
    } else {
      assert (a + b)[0] == a[0];
      assert (a + b)[1..] == a[1..] + b;
      StripBracketsPrefix(a[1..], b);
      assert a == [a[0]] + a[1..];
    }
  }

  /** A `]` after text holding neither `]` nor a newline is where the
      span closes. */
  lemma {:induction false} FindCloseAt(x: string, b: string)
    requires ']' !in x && '\n' !in x
    ensures FindClose(x + "]" + b) == Some(|x|)
    decreases |x|
  {
    if |x| > 0 {
      assert (x + "]" + b)[0] == x[0];
      assert (x + "]" + b)[1..] == x[1..] + "]" + b;
      FindCloseAt(x[1..], b);
    }
  }

  /** A span `[x]` with `x` free of `]` and newlines is cut out entirely,
      brackets included, and the rest is processed on its own. */
  lemma StripBracketsSpan(x: string, b: string)
    requires ']' !in x && '\n' !in x
    ensures StripBrackets("[" + x + "]" + b) == StripBrackets(b)
  {
    var s := "[" + x + "]" + b;
    assert s[1..] == x + "]" + b;
    FindCloseAt(x, b);
    assert s[|x| + 2..] == b;
  }

  /** A `[` that no `]` closes before the next newline is kept. */
  lemma StripBracketsUnclosed(t: string)
    requires FindClose(t).None?
    ensures StripBrackets("[" + t) == "[" + StripBrackets(t)
  {
    assert ("[" + t)[1..] == t;
  }

  /** Concrete cases: an annotation and a page marker are cut, the match is
      non-greedy from the first `[`, and a newline stops a span. */
  lemma StripBracketsExamples()
    ensures StripBrackets("a[1]b") == "ab"
    ensures StripBrackets("[[x]y]") == "y]"
    ensures StripBrackets("[a\nb]") == "[a\nb]"
  {
    StripBracketsShortSpan();
    StripBracketsNested();
    StripBracketsAcrossNewline();
  }

  /** A short span in the middle of a word disappears. */
  lemma StripBracketsShortSpan()
    ensures StripBrackets("a[1]b") == "ab"
  {
    assert FindClose("1]b") == Some(1);
    assert StripBrackets("a[1]b") == "a" + StripBrackets("[1]b");
    assert "[1]b"[3..] == "b";
    assert StripBrackets("b") == "b";
  }

  /** The match is non-greedy: it ends at the first `]`, and what follows
      it stays. */
  lemma StripBracketsNested()
    ensures StripBrackets("[[x]y]") == "y]"
  {
    assert FindClose("[x]y]") == Some(2);
    assert "[[x]y]"[4..] == "y]";
    assert StripBrackets("]") == "]";
    assert StripBrackets("y]") == "y" + StripBrackets("]");
  }

  /** A span may not cross a line break. */
  lemma StripBracketsAcrossNewline()
    ensures StripBrackets("[a\nb]") == "[a\nb]"
  {
    assert FindClose("a\nb]") == None;
    assert "[a\nb]"[1..] == "a\nb]";
    assert StripBrackets("]") == "]";
    assert StripBrackets("b]") == "b" + StripBrackets("]");
    assert StripBrackets("\nb]") == "\n" + StripBrackets("b]");
    assert StripBrackets("a\nb]") == "a" + StripBrackets("\nb]");
  }

  // ---------------------------------------------------------------------
  // Whitespace collapsing

  /** Collapsing never loses a non-whitespace character. */
  lemma {:induction false} CollapseKeepsVisible(s: string)
    ensures Visible(CollapseSpaces(s)) == Visible(s)
    decreases |s|
  {
    if |s| == 0 {
    } else if IsSpace(s[0]) {
      var t := TrimStart(s);
      TrimStartFacts(s);
      CollapseKeepsVisible(t);
      assert s == s[..|s| - |t|] + t;
      VisibleAppend(s[..|s| - |t|], t);
      VisibleOfSpaces(s[..|s| - |t|]);
      VisibleAppend(" ", CollapseSpaces(t));
    } else {
      CollapseKeepsVisible(s[1..]);
      VisibleAppend([s[0]], CollapseSpaces(s[1..]));
    }
  }

  /** A text whose whitespace is already single plain spaces is left as is. */
  lemma {:induction false} CollapseFixesSingleSpaces(s: string)
    requires SingleSpaced(s)
    ensures CollapseSpaces(s) == s
    decreases |s|
  {
    if |s| > 0 {
      if IsSpace(s[0]) {
        assert TrimStart(s) == s[1..] by {
          if |s| > 1 {
            assert !IsSpace(s[1]);
            assert TrimStart(s[1..]) == s[1..];
          }
        }
      }
      CollapseFixesSingleSpaces(s[1..]);
      assert s == [s[0]] + s[1..];
    }
  }

  /** The non-whitespace, non-punctuation content outside removed spans is
      carried through cleaning in order. */
  lemma CleanKeepsVisible(text: string)
    ensures Visible(Clean(text)) == Visible(DropPunctuation(StripBrackets(text)))
  {
    if text != "" {
      var d := DropPunctuation(StripBrackets(text));
      CollapseKeepsVisible(d);
      StripKeepsVisible(CollapseSpaces(d));
    }
  }

  /** A normalized text with no span in it is its own cleaning. */
  lemma CleanFixes(s: string)
    requires Normalized(s) && NoSpan(s)
    ensures Clean(s) == s
  {
    if s != "" {
      StripBracketsFixesNoSpan(s);
      CollapseFixesSingleSpaces(s);
      assert TrimStart(s) == s;
      assert TrimEnd(s) == s;
    }
  }

  /** Cleaning is idempotent whenever its output has no bracketed span left. */
  lemma CleanIdempotent(text: string)
    requires NoSpan(Clean(text))
    ensures Clean(Clean(text)) == Clean(text)
  {
    CleanFixes(Clean(text));
  }

  /** ... and only then: newlines inside a bracket pair keep the span on the
      first pass, but cleaning turns them into spaces, so a second pass cuts
      the span. */
  lemma CleanNotIdempotentAcrossNewline()
    ensures Clean("[a\nb]") == "[a b]"
    ensures Clean("[a b]") == ""
  {
    CleanKeepsNewlineSpan();
    CleanCutsSpan();
  }

  // The lemmas from here to the end evaluate the cleaning of the two
  // literals above stage by stage. Each one unfolds a recursive function by
  // one or two characters and cites the lemma for the rest of the literal;
  // evaluated in one proof, the nested unfoldings cost the solver far more
  // than these small steps do together.

  /** The newline protects the span from bracket removal, and collapsing then
      turns it into a space. */
  lemma CleanKeepsNewlineSpan()
    ensures Clean("[a\nb]") == "[a b]"
  {
    StripBracketsExamples();
    DropPunctuationExample();
    CollapseNewlineExample();
    StripExample();
  }

  lemma DropPunctuationExample()
    ensures DropPunctuation("[a\nb]") == "[a\nb]"
  {
    var s := "[a\nb]";
    assert s[0] == '[' && s[1] == 'a' && s[2] == '\n' && s[3] == 'b' && s[4] == ']';
    assert NoPunctuation(s);
  }

  lemma StripExample()
    ensures Strip("[a b]") == "[a b]"
  {
    var t := "[a b]";
    assert t[0] == '[' && t[|t| - 1] == ']';
    assert TrimStart(t) == t;
    assert TrimEnd(t) == t;
  }

  lemma CollapseNewlineExample()
    ensures CollapseSpaces("[a\nb]") == "[a b]"
  {
    CollapseNewlineTail();
    var s := "[a\nb]";
    assert s[1..] == "a\nb]";
    assert !IsSpace(s[0]);
    assert CollapseSpaces(s) == [s[0]] + CollapseSpaces(s[1..]);
  }

  lemma CollapseNewlineTail()
    ensures CollapseSpaces("a\nb]") == "a b]"
  {
    CollapseNewlineAt();
    var s := "a\nb]";
    assert s[1..] == "\nb]";
    assert !IsSpace(s[0]);
    assert CollapseSpaces(s) == [s[0]] + CollapseSpaces(s[1..]);
  }

  lemma CollapseNewlineAt()
    ensures CollapseSpaces("\nb]") == " b]"
  {
    CollapseClosingTail();
    TrimNewline();
  }

  lemma CollapseClosingTail()
    ensures CollapseSpaces("b]") == "b]"
  {
    assert CollapseSpaces("]") == "]";
  }

  lemma TrimNewline()
    ensures TrimStart("\nb]") == "b]"
  {
    assert "\nb]"[1..] == "b]";
  }

  lemma CleanCutsSpan()
    ensures Clean("[a b]") == ""
  {
    assert FindClose("b]") == Some(1);
    assert FindClose(" b]") == Some(2);
    assert FindClose("a b]") == Some(3);
    assert StripBrackets("[a b]") == "";
  }
}

=== FILE: scenarios.dfy ===
/**
  The worked example of the translation core: `lupus est` is normalized and
  registered, translation is refused while the core token `lupus` has no
  translation, and after `lupus` is bound to `lobo` the rendering is
  `lobo [est]`.
 */
module Scenarios {
  import opened Text
  import opened Normalizer
  import opened Lexicon
  import opened Core

  const Source: string := "lupus est"

  /** The session after normalizing and registering the example text. */
  function AfterRegister(): Session {
    Session(
      map["lupus" := Entry("lupus", "", CoreCategory, PendingStatus, [0]),
          "est" := Entry("est", "", ParticleCategory, PendingStatus, [1])],
      Source, [], LexiconReady)
  }

  /** The same session once the editor has bound `lupus` to `lobo`. */
  function Resolved(): Session {
    var s := AfterRegister();
    s.(glossary := s.glossary["lupus" := s.glossary["lupus"].(tokenTgt := "lobo", status := "ASIGNADO")])
  }

  lemma SourceIsClean()
    ensures Normalized(Source) && NoSpan(Source)
  {
    SourceIsNormalized();
    SourceHasNoSpan();
  }

  lemma SourceIsNormalized()
    ensures Normalized(Source)
  {
    SourceSpaces();
    assert NoPunctuation(Source);
  }

  /** The only whitespace in the example text is the space at index 5. */
  lemma SourceSpaces()
    ensures forall i :: 0 <= i < |Source| ==> (IsSpace(Source[i]) <==> i == 5)
    ensures Source[5] == ' '
  {
    var t := Source;
    assert t[0] == 'l' && t[1] == 'u' && t[2] == 'p' && t[3] == 'u' && t[4] == 's';
    assert t[5] == ' ' && t[6] == 'e' && t[7] == 's' && t[8] == 't';
  }

  lemma SourceHasNoSpan()
    ensures NoSpan(Source)
  {
    assert '[' !in Source;
  }

  /** Normalizing the example text keeps it as it is. */
  lemma NormalizeExample()
    ensures Normalize(Init(), Source) == (Init().(sourceText := Source), Source)
  {
    SourceIsClean();
    CleanFixes(Source);
  }

  lemma PiecesExample()
    ensures Pieces(Source) == ["lupus", "est"]
  {
    var xs := ["lupus", "est"];
    assert JoinWith(xs, ' ') == Source by {
      assert xs[1..] == ["est"];
    }
    assert ' ' !in xs[0] && ' ' !in xs[1];
    SplitJoin(xs, ' ');
  }

  /** Registration creates two pending entries: `lupus` (five letters) as a
      core token and `est` (three) as a particle. */
  lemma RegisterExample()
    ensures Register(Init().(sourceText := Source)) == (AfterRegister(), Added(2))
  {
    PiecesExample();
    RegisteredExample();
  }

  lemma TokenSetExample()
    ensures TokenSet(["lupus", "est"]) == {"lupus", "est"}
  {
    var ts := ["lupus", "est"];
    assert ts[0] == "lupus" && ts[1] == "est";
  }

  lemma OccurrencesExample()
    ensures Occurrences(["lupus", "est"], "lupus") == [0]
    ensures Occurrences(["lupus", "est"], "est") == [1]
  {
    var ts := ["lupus", "est"];
    assert ts[..1] == ["lupus"];
    assert ts[..1][..0] == [];
    assert Occurrences(ts[..1], "lupus") == [0];
    assert Occurrences(ts[..1], "est") == [];
  }

  lemma RegisteredExample()
    ensures Registered(map[], ["lupus", "est"]) == AfterRegister().glossary
  {
    TokenSetExample();
    OccurrencesExample();
  }

  /** Translating before `lupus` has a translation is refused, naming only
      `lupus`, and the session is unchanged. */
  lemma BlockedExample()
    ensures Translate(AfterRegister()) == (AfterRegister(), ProtocolError({"lupus"}))
  {
    var g := AfterRegister().glossary;
    assert Blocks(g["lupus"]) && !Blocks(g["est"]);
    var r := Translate(AfterRegister());
    assert r.1.missing == {"lupus"};
  }

  /** Once `lupus` is bound to `lobo`, the rendering is `lobo [est]`. */
  lemma ResolvedExample()
    ensures Translate(Resolved()).1 == Translated
    ensures Translate(Resolved()).0.output == ["lobo", "[est]"]
    ensures Render(Translate(Resolved()).0) == "lobo [est]"
  {
    ResolvedOutput();
    JoinExample();
  }

  lemma ResolvedOutput()
    ensures Translate(Resolved()).1 == Translated
    ensures Translate(Resolved()).0.output == ["lobo", "[est]"]
  {
    PiecesExample();
    var g := Resolved().glossary;
    assert g.Keys == {"lupus", "est"};
    assert forall k :: k in g ==> !Blocks(g[k]);
    var ts := ["lupus", "est"];
    assert NonEmpty(ts) == ts;
    var out := Translate(Resolved()).0.output;
    assert |out| == 2;
    assert out[0] == RenderToken(g, "lupus") == "lobo";
    RenderParticleExample();
    assert out[1] == RenderToken(g, "est");
  }

  /** The unresolved particle falls back to square brackets. */
  lemma RenderParticleExample()
    ensures RenderToken(Resolved().glossary, "est") == "[est]"
  {
    var g := Resolved().glossary;
    assert "est" != "lupus" by {
      assert |"est"| != |"lupus"|;
    }
    assert g["est"] == Entry("est", "", ParticleCategory, PendingStatus, [1]);
    assert ParticleCategory != CoreCategory;
    assert "[" + "est" + "]" == "[est]";
  }

  lemma JoinExample()
    ensures JoinWith(["lobo", "[est]"], ' ') == "lobo [est]"
  {
    var out := ["lobo", "[est]"];
    assert out[1..] == ["[est]"];
  }
}

=== FILE: text.dfy ===
/**
  String helpers shared by the translation core: the whitespace class,
  splitting on one separator character, joining with one, trimming, and the
  small lemmas that tie them together (split/join round trips).
 */
module Text {

  datatype Option<+T> = None | Some(value: T)

  /** The characters Python's `str.isspace` (and so the regex class `\s`)
      accepts: ASCII tab to carriage return, the four information separators,
      space, NEL, NBSP, the Unicode space separators, and the line and
      paragraph separators. */
  predicate IsSpace(c: char) {
    || ('\t' <= c <= '\r')
    || ('\U{1C}' <= c <= '\U{1F}')
    || c == ' '
    || c == '\U{85}'
    || c == '\U{A0}'
    || c == '\U{1680}'
    || ('\U{2000}' <= c <= '\U{200A}')
    || c == '\U{2028}'
    || c == '\U{2029}'
    || c == '\U{202F}'
    || c == '\U{205F}'
    || c == '\U{3000}'
  }

  /** `s.split(sep)` for a one-character separator: every separator ends a
      piece, so consecutive separators give empty pieces and `""` gives `[""]`. */
  function SplitOn(s: string, sep: char): (r: seq<string>)
    ensures |r| >= 1
    ensures forall i :: 0 <= i < |r| ==> sep !in r[i]
    decreases |s|
  {
    if |s| == 0 then [""]
    else if s[0] == sep then [""] + SplitOn(s[1..], sep)
    else
      var rest := SplitOn(s[1..], sep);
      [[s[0]] + rest[0]] + rest[1..]
  }

  /** `sep.join(xs)` for a one-character separator. */
  function JoinWith(xs: seq<string>, sep: char): (r: string)
    ensures |xs| == 0 ==> r == ""
    ensures |xs| > 0 ==> |r| == TotalLength(xs) + |xs| - 1
  {
    if |xs| == 0 then ""
    else if |xs| == 1 then xs[0]
    else xs[0] + [sep] + JoinWith(xs[1..], sep)
  }

  /** A single piece is joined to itself. */
  lemma JoinSingle(x: string, sep: char)
    ensures JoinWith([x], sep) == x
  {
  }

  /** Joining two non-empty lists puts exactly one separator between the
      joins of each: the result is the pieces in order, one separator apart. */
  lemma {:induction false} JoinAppend(xs: seq<string>, ys: seq<string>, sep: char)
    requires |xs| > 0 && |ys| > 0
    ensures JoinWith(xs + ys, sep) == JoinWith(xs, sep) + [sep] + JoinWith(ys, sep)
    decreases |xs|
  {
    assert (xs + ys)[0] == xs[0];
    assert (xs + ys)[1..] == xs[1..] + ys;
    if |xs| == 1 {
      assert xs[1..] + ys == ys;
    } else {
      JoinAppend(xs[1..], ys, sep);
    }
  }

  function TotalLength(xs: seq<string>): nat {
    if |xs| == 0 then 0 else |xs[0]| + TotalLength(xs[1..])
  }

  /** The pieces of a split, with the empty ones skipped (order kept). */
  function NonEmpty(xs: seq<string>): (r: seq<string>)
    ensures |r| <= |xs|
    ensures forall i :: 0 <= i < |r| ==> r[i] != ""
    ensures (forall i :: 0 <= i < |xs| ==> xs[i] != "") ==> r == xs
  {
    if |xs| == 0 then []
    else if xs[0] == "" then NonEmpty(xs[1..])
    else [xs[0]] + NonEmpty(xs[1..])
  }

  /** A single piece is dropped exactly when it is empty. */
  lemma NonEmptySingle(x: string)
    ensures NonEmpty([x]) == if x == "" then [] else [x]
  {
    assert [x][1..] == [];
  }

  /** Skipping empty pieces works list by list: the kept pieces of `a` come
      first, then those of `b`, each in its own order. */
  lemma {:induction false} NonEmptyAppend(a: seq<string>, b: seq<string>)
    ensures NonEmpty(a + b) == NonEmpty(a) + NonEmpty(b)
    decreases |a|
  {
    if |a| == 0 {
      assert a + b == b;
    } else {
      assert (a + b)[0] == a[0];
      assert (a + b)[1..] == a[1..] + b;
      NonEmptyAppend(a[1..], b);
    }
  }

  /** Drops the leading whitespace (`TrimStartFacts` states what it keeps). */
  function TrimStart(s: string): (r: string)
    ensures |r| <= |s|
  {
    if |s| > 0 && IsSpace(s[0]) then TrimStart(s[1..]) else s
  }

  /** Drops the trailing whitespace (`TrimEndFacts` states what it keeps). */
  function TrimEnd(s: string): (r: string)
    ensures |r| <= |s|
  {
    if |s| > 0 && IsSpace(s[|s| - 1]) then TrimEnd(s[..|s| - 1]) else s
  }

  /** `TrimStart` keeps a suffix that does not start with whitespace, and
      everything it drops is whitespace. */
  lemma {:induction false} TrimStartFacts(s: string)
    ensures var r := TrimStart(s);
      && r == s[|s| - |r|..]
      && (|r| > 0 ==> !IsSpace(r[0]))
      && (forall i :: 0 <= i < |s| - |r| ==> IsSpace(s[i]))
    decreases |s|
  {
    if |s| > 0 && IsSpace(s[0]) {
      TrimStartFacts(s[1..]);
      forall i | 1 <= i < |s| - |TrimStart(s)| ensures IsSpace(s[i]) {
        assert s[i] == s[1..][i - 1];
      }
    }
  }

  /** `TrimEnd` keeps a prefix that does not end with whitespace, and
      everything it drops is whitespace. */
  lemma {:induction false} TrimEndFacts(s: string)
    ensures var r := TrimEnd(s);
      && r == s[..|r|]
      && (|r| > 0 ==> !IsSpace(r[|r| - 1]))
      && (forall i :: |r| <= i < |s| ==> IsSpace(s[i]))
    decreases |s|
  {
    if |s| > 0 && IsSpace(s[|s| - 1]) {
      TrimEndFacts(s[..|s| - 1]);
      forall i | |TrimEnd(s)| <= i < |s| - 1 ensures IsSpace(s[i]) {
        assert s[i] == s[..|s| - 1][i];
      }
    }
  }

  /** `s.strip()` with no argument: a contiguous slice of `s` with neither
      leading nor trailing whitespace, everything cut off being whitespace. */
  function Strip(s: string): (r: string)
    ensures var a := |s| - |TrimStart(s)|;
      && a + |r| <= |s| && r == s[a..a + |r|]
      && (forall i :: 0 <= i < a ==> IsSpace(s[i]))
      && (forall i :: a + |r| <= i < |s| ==> IsSpace(s[i]))
    ensures |r| > 0 ==> !IsSpace(r[0]) && !IsSpace(r[|r| - 1])
  {
    StripFacts(s);
    TrimEnd(TrimStart(s))
  }

  /** The facts behind `Strip`'s contract, stated on its definition. */
  lemma StripFacts(s: string)
    ensures var t := TrimStart(s); var r := TrimEnd(t); var a := |s| - |t|;
      && a + |r| <= |s| && r == s[a..a + |r|]
      && (forall i :: 0 <= i < a ==> IsSpace(s[i]))
      && (forall i :: a + |r| <= i < |s| ==> IsSpace(s[i]))
      && (|r| > 0 ==> !IsSpace(r[0]) && !IsSpace(r[|r| - 1]))
  {
    var t := TrimStart(s);
    var r := TrimEnd(t);
    TrimStartFacts(s);
    TrimEndFacts(t);
    StripSlice(s, t, r);
  }

  /** A prefix of a suffix is a slice, and whitespace behind the prefix is
      whitespace behind the slice. */
  lemma StripSlice(s: string, t: string, r: string)
    requires |t| <= |s| && t == s[|s| - |t|..]
    requires |r| <= |t| && r == t[..|r|]
    requires forall i :: |r| <= i < |t| ==> IsSpace(t[i])
    ensures var a := |s| - |t|;
      && a + |r| <= |s| && r == s[a..a + |r|]
      && (forall i :: a + |r| <= i < |s| ==> IsSpace(s[i]))
    ensures |r| > 0 && |t| > 0 ==> r[0] == t[0]
  {
    var a := |s| - |t|;
    forall i | a + |r| <= i < |s| ensures IsSpace(s[i]) {
      assert s[i] == t[i - a];
    }
  }

  /** Every whitespace character of `s` is a plain space, and no two
      whitespace characters are adjacent. */
  ghost predicate SingleSpaced(s: string) {
    && (forall i :: 0 <= i < |s| && IsSpace(s[i]) ==> s[i] == ' ')
    && (forall i, j :: 0 <= i < j < |s| && j == i + 1 ==> !(IsSpace(s[i]) && IsSpace(s[j])))
  }

  /** The non-whitespace characters of `s`, in order. */
  function Visible(s: string): string {
    if |s| == 0 then "" else (if IsSpace(s[0]) then "" else [s[0]]) + Visible(s[1..])
  }

  lemma {:induction false} VisibleAppend(a: string, b: string)
    ensures Visible(a + b) == Visible(a) + Visible(b)
    decreases |a|
  {
    if |a| > 0 {
      assert (a + b)[1..] == a[1..] + b;
      VisibleAppend(a[1..], b);
    } else {
      assert a + b == b;
    }
  }

  lemma {:induction false} VisibleOfSpaces(s: string)
    requires forall i :: 0 <= i < |s| ==> IsSpace(s[i])
    ensures Visible(s) == ""
    decreases |s|
  {
    if |s| > 0 {
      VisibleOfSpaces(s[1..]);
    }
  }

  /** Trimming never loses a non-whitespace character. */
  lemma {:induction false} StripKeepsVisible(s: string)
    ensures Visible(Strip(s)) == Visible(s)
  {
    var r := Strip(s);
    var a := |s| - |TrimStart(s)|;
    var front, back := s[..a], s[a + |r|..];
    assert s == front + (r + back);
    VisibleAppend(front, r + back);
    VisibleAppend(r, back);
    VisibleOfSpaces(front);
    VisibleOfSpaces(back);
  }

  /** Splitting, then joining with the same separator, gives the text back. */
  lemma {:induction false} JoinSplit(s: string, sep: char)
    ensures JoinWith(SplitOn(s, sep), sep) == s
    decreases |s|
  {
    if |s| == 0 {
    } else if s[0] == sep {
      JoinSplit(s[1..], sep);
      var rest := SplitOn(s[1..], sep);
      assert ([""] + rest)[1..] == rest;
      assert s == "" + [sep] + s[1..];
    } else {
      JoinSplit(s[1..], sep);
      JoinGlue([s[0]], SplitOn(s[1..], sep), sep);
      assert s == [s[0]] + s[1..];
    }
  }

  /** Gluing a prefix onto the first piece glues it onto the joined text. */
  lemma JoinGlue(a: string, xs: seq<string>, sep: char)
    requires |xs| > 0
    ensures JoinWith([a + xs[0]] + xs[1..], sep) == a + JoinWith(xs, sep)
  {
    var ys := [a + xs[0]] + xs[1..];
    if |xs| > 1 {
      assert ys[1..] == xs[1..];
      assert (a + xs[0]) + [sep] + JoinWith(xs[1..], sep) == a + (xs[0] + [sep] + JoinWith(xs[1..], sep));
    }
  }

  /** A separator-free prefix is glued onto the first piece. */
  lemma {:induction false} SplitSeparatorFreePrefix(a: string, t: string, sep: char)
    requires sep !in a
    ensures SplitOn(a + t, sep) == [a + SplitOn(t, sep)[0]] + SplitOn(t, sep)[1..]
    decreases |a|
  {
    if |a| > 0 {
      assert (a + t)[0] == a[0];
      assert (a + t)[1..] == a[1..] + t;
      SplitSeparatorFreePrefix(a[1..], t, sep);
      assert [a[0]] + (a[1..] + SplitOn(t, sep)[0]) == a + SplitOn(t, sep)[0];
    } else {
      var parts := SplitOn(t, sep);
      assert a + t == t;
      assert a + parts[0] == parts[0];
      assert parts == [parts[0]] + parts[1..];
    }
  }

  /** Joining separator-free pieces, then splitting, gives the pieces back. */
  lemma {:induction false} SplitJoin(xs: seq<string>, sep: char)
    requires |xs| > 0
    requires forall i :: 0 <= i < |xs| ==> sep !in xs[i]
    ensures SplitOn(JoinWith(xs, sep), sep) == xs
    decreases |xs|
  {
    if |xs| == 1 {
      SplitSeparatorFreePrefix(xs[0], "", sep);
      assert xs[0] + "" == xs[0];
    } else {
      var tail := JoinWith(xs[1..], sep);
      SplitJoin(xs[1..], sep);
      assert ([sep] + tail)[0] == sep;
      assert ([sep] + tail)[1..] == tail;
      assert SplitOn([sep] + tail, sep) == [""] + xs[1..];
      assert xs[0] + [sep] + tail == xs[0] + ([sep] + tail);
      SplitSeparatorFreePrefix(xs[0], [sep] + tail, sep);
      assert xs[0] + "" == xs[0];
    }
  }

  /** A text that neither starts nor ends with the separator and never holds
      two separators in a row. */
  ghost predicate SingleSeparated(s: string, sep: char) {
    && (|s| > 0 ==> s[0] != sep && s[|s| - 1] != sep)
    && forall i, j :: 0 <= i < j < |s| && j == i + 1 ==> !(s[i] == sep && s[j] == sep)
  }

  /** Such a text, if not empty, splits into non-empty pieces only. */
  lemma {:induction false} SplitSingleSeparatedNonEmpty(s: string, sep: char)
    requires |s| > 0 && SingleSeparated(s, sep)
    ensures forall i :: 0 <= i < |SplitOn(s, sep)| ==> SplitOn(s, sep)[i] != ""
    decreases |s|
  {
    var rest := SplitOn(s[1..], sep);
    if |s| == 1 {
    } else if s[1] != sep {
      SplitSingleSeparatedNonEmpty(s[1..], sep);
    } else {
      assert s[2] != sep;
      assert s[1..][1..] == s[2..];
      SplitSingleSeparatedNonEmpty(s[2..], sep);
      assert rest == [""] + SplitOn(s[2..], sep);
      assert rest[1..] == SplitOn(s[2..], sep);
    }
  }

  // ---------------------------------------------------------------------
  // Words: the text cut at whitespace runs (`str.split()` without argument)

  /** The text cut at every whitespace character, empty pieces included. */
  function Fields(s: string): (r: seq<string>)
    ensures |r| >= 1
    decreases |s|
  {
    if |s| == 0 then [""]
    else if IsSpace(s[0]) then [""] + Fields(s[1..])
    else
      var rest := Fields(s[1..]);
      [[s[0]] + rest[0]] + rest[1..]
  }

  /** The words of a text: its maximal runs of non-whitespace characters, in
      order, with the whitespace between them dropped. */
  function Words(s: string): seq<string> {
    NonEmpty(Fields(s))
  }

  /** The words are those of the first field followed by those of the rest. */
  lemma WordsOfFields(s: string)
    ensures Words(s) == NonEmpty([Fields(s)[0]]) + NonEmpty(Fields(s)[1..])
  {
    var f := Fields(s);
    assert f == [f[0]] + f[1..];
    NonEmptyAppend([f[0]], f[1..]);
  }

  /** Leading whitespace holds no word. */
  lemma WordsSkipSpace(s: string)
    requires |s| > 0 && IsSpace(s[0])
    ensures Words(s) == Words(s[1..])
  {
    assert ([""] + Fields(s[1..]))[1..] == Fields(s[1..]);
  }

  lemma {:induction false} WordsTrimStart(s: string)
    ensures Words(TrimStart(s)) == Words(s)
    decreases |s|
  {
    if |s| > 0 && IsSpace(s[0]) {
      WordsTrimStart(s[1..]);
      WordsSkipSpace(s);
    }
  }

  /** A whitespace character at the end closes the last field and opens an
      empty one. */
  lemma {:induction false} FieldsSnocSpace(x: string, c: char)
    requires IsSpace(c)
    ensures Fields(x + [c]) == Fields(x) + [""]
    decreases |x|
  {
    if |x| == 0 {
      assert x + [c] == [c];
      assert [c][1..] == [];
    } else {
      assert (x + [c])[0] == x[0];
      assert (x + [c])[1..] == x[1..] + [c];
      FieldsSnocSpace(x[1..], c);
      if !IsSpace(x[0]) {
        var f := Fields(x[1..]);
        assert (f + [""])[0] == f[0];
        assert (f + [""])[1..] == f[1..] + [""];
      }
    }
  }

  lemma {:induction false} WordsTrimEnd(s: string)
    ensures Words(TrimEnd(s)) == Words(s)
    decreases |s|
  {
    if |s| > 0 && IsSpace(s[|s| - 1]) {
      var x := s[..|s| - 1];
      WordsTrimEnd(x);
      assert s == x + [s[|s| - 1]];
      FieldsSnocSpace(x, s[|s| - 1]);
      NonEmptyAppend(Fields(x), [""]);
    }
  }

  /** Stripping the ends loses no word. */
  lemma StripKeepsWords(s: string)
    ensures Words(Strip(s)) == Words(s)
  {
    WordsTrimStart(s);
    WordsTrimEnd(TrimStart(s));
  }

  /** When the plain space is the only whitespace in a text, cutting it at
      spaces is cutting it at whitespace. */
  lemma {:induction false} SplitPlainSpaces(s: string)
    requires forall i :: 0 <= i < |s| && IsSpace(s[i]) ==> s[i] == ' '
    ensures SplitOn(s, ' ') == Fields(s)
    decreases |s|
  {
    if |s| > 0 {
      assert forall i :: 0 <= i < |s[1..]| ==> s[1..][i] == s[i + 1];
      SplitPlainSpaces(s[1..]);
      assert IsSpace(s[0]) <==> s[0] == ' ';
    }
  }
}
